=== FILE: README.md ===
# wasm-actors: the host–guest calling convention, in Dafny

This project models the core of a small wasmer prototype: a host process calls into an actor compiled to WebAssembly (the guest) and passes data through the guest's linear memory. The model is sequential. Linear memory is one `array<Byte>`, and the host object and the guest object share it. It covers:

- **Bit reinterpretation** (module `Shared`, from `shared/src/lib.rs`). `from_i64`, `from_u64`, `from_u32` and `from_i32` go through `to_le_bytes`/`from_le_bytes`. They are written that way here: `LeBytes`/`LeValue` give the little-endian image, and signed values are laid out in two's complement. Each function's contract states its closed form. The round-trip laws are lemmas.
- **The actor state** (`CoolActor`, `NewParams`, `NewReturn`, `CoolActor::new`).
- **serde_cbor** (module `Cbor`). The encoder and decoder are a foreign library. They enter the model only as the function-valued fields of a `Codec` value. The model assumes nothing about them except what a member names in its precondition.
- **The host environment** (module `HostRuntime`, from `runtime/src/lib.rs`). Class `Runtime` holds:
  - the append-only actor `store`;
  - the single pending-return cell `returnValue`;
  - a ghost log of the import calls it served.

  `read_slice`, `rt_create`, `write_return_bytes` and `pop_return` are its members.
- **The guest** (module `Actors`, from `actors/src/lib.rs`, built for wasm32). Class `Guest` holds the `static mut BUFFER` as a window of linear memory, plus a ghost log of `alloc_buffer` requests. Its members are:
  - `alloc_buffer`;
  - `read_arguments`;
  - `Runtime::create`;
  - `write_return`;
  - the exported `cool_actor_constructor`, which calls the host's import methods in order.

  `add_one` is a function.
- **The host's call machinery** (module `HostVm`, from `runtime/src/lib.rs`). It has:
  - the allocation cache `ManagedMemory`, whose ghost request log keeps the invariant "cached size = largest size ever requested";
  - `write_bytes`, with its cell-by-cell loop;
  - `write_args`, `read_bytes` and `call`.

  `runtime/src/lib.rs` is split over `HostRuntime` and `HostVm` because the guest calls the host's imports and the host calls the guest's exports. Dafny modules cannot import each other in a cycle.

**The two sides disagree on framing.** `write_bytes` writes an 8-byte little-endian length prefix at `ptr`, with the payload after it. It returns `(ptr, payload length)`, and `call` forwards that pair unchanged. The guest's `read_arguments` reads `len` bytes from `ptr`, so it sees the first `len` bytes of prefix-plus-payload, not the payload. `HostVm.GuestWindowOverFrame` states exactly this. `HostVm.OneBytePayloadSeenAsLength` shows that a one-byte payload reaches the guest as the byte `1`. The model makes no claim that the guest reads back what the host encoded. Instead, `Vm.Call` needs the guest's decoder to accept the window it actually receives (`ConstructorCallSucceeds`). For the one call `Vm::run` makes, that premise is expected to fail. The argument record `NewParams {}` encodes to a single byte, so the guest sees `[1]`. In CBOR the byte `0x01` is the integer 1, not a map, so serde_cbor's struct decoder for `NewParams` rejects `[1]`. The guest's `unwrap` then panics, and the panic handler spins forever. `HostVm.StrictDecoderRejectsConstructorCall` states this without fixing any other CBOR bytes: if the arguments encode to one byte and the decoder rejects `[1]`, the constructor call's preconditions do not hold.

Where the documented design and the code differ, the model follows the code:
- Failed decodes and missing returns end in `unwrap` panics, not in typed errors. They are preconditions here.
- `alloc_buffer` resizes to exactly the requested size, not "at least".
- The argument framing is inconsistent between the two sides, as described above.

## Model

| member | source | states |
|---|---|---|
| Shared.NewCoolActor | shared/src/lib.rs:20-26 | the parameters are ignored and the new actor's `value` is 0 |
| Shared.FromI64 | shared/src/lib.rs:31-33 | a non-negative value is unchanged; a negative one becomes `x + 2^64` (its bytes reused unchanged) |
| Shared.FromU64 | shared/src/lib.rs:36-38 | the result is negative exactly when `x >= 2^63`, and is then `x - 2^64`; smaller values are unchanged |
| Shared.FromU32 | shared/src/lib.rs:41-43 | the result is negative exactly when `x >= 2^31`, and is then `x - 2^32`; smaller values are unchanged |
| Shared.FromI32 | shared/src/lib.rs:46-48 | a non-negative value is unchanged; a negative one becomes `x + 2^32` |
| Shared.FromU64FromI64 | shared/src/lib.rs:31-38 | `from_u64(from_i64(x)) == x` for every signed 64-bit `x` |
| Shared.FromI64FromU64 | shared/src/lib.rs:31-38 | `from_i64(from_u64(x)) == x` for every unsigned 64-bit `x` |
| Shared.FromU32FromI32 | shared/src/lib.rs:41-48 | `from_u32(from_i32(x)) == x` for every signed 32-bit `x` |
| Shared.FromI32FromU32 | shared/src/lib.rs:41-48 | `from_i32(from_u32(x)) == x` for every unsigned 32-bit `x` |
| Shared.ReinterpretationKeepsBytes | shared/src/lib.rs:31-48 | each conversion's result has the same little-endian image as its argument |
| Shared.I64BytesRoundTrip | shared/src/lib.rs:32 | `i64::from_le_bytes(x.to_le_bytes()) == x` |
| Shared.I64BytesCover | shared/src/lib.rs:37 | every 8-byte pattern is the image of the signed value it decodes to, so the 64-bit reinterpretation is a bijection |
| Shared.I32BytesCover | shared/src/lib.rs:42 | every 4-byte pattern is the image of the signed value it decodes to |
| Shared.LeValue | shared/src/lib.rs:32 | the value read from `n` little-endian bytes is below `256^n` |
| Shared.LeValueOfLeBytes | runtime/src/lib.rs:126 | reading back the little-endian image of a number that fits the width gives the number |
| Shared.LeBytesOfLeValue | shared/src/lib.rs:37 | every byte sequence is the little-endian image of the number it reads as |
| HostRuntime.Runtime.constructor | runtime/src/lib.rs:22-30 | a new environment has an empty store, an empty return cell and no import calls |
| HostRuntime.Runtime.ReadSlice | runtime/src/lib.rs:32-38 | the result has length `from_i32(len)`, and its i-th byte is memory cell `from_i64(ptr) + i`; memory is only read |
| HostRuntime.Runtime.ReadSliceOfGuestWindow | runtime/src/lib.rs:35-37 | a window the guest passes as `(from_u64(addr), from_u32(len))` is read back exactly as `memory[addr..addr+len]` |
| HostRuntime.Runtime.RtCreate | runtime/src/lib.rs:63-67 | exactly one blob, the slice read, is appended to the store; the return cell is unchanged; one `rt_create` call is logged |
| HostRuntime.Runtime.WriteReturnBytes | runtime/src/lib.rs:69-72 | the return cell is overwritten with the slice read; the store is unchanged; one `write_return_bytes` call is logged |
| HostRuntime.Runtime.PopReturn | runtime/src/lib.rs:40-45 | the result is the decoding of the old cell contents, and the cell is empty afterwards |
| Actors.AddOne | actors/src/lib.rs:31-34 | `a + 1` below `i32::MAX`; `i32::MAX` wraps to `i32::MIN` |
| Actors.AddOneOfOne | actors/src/lib.rs:157-160 | `add_one(1) == 2` |
| Actors.Guest.constructor | actors/src/lib.rs:66-67 | `BUFFER` starts empty and nothing has been allocated |
| Actors.Guest.AllocBuffer | actors/src/lib.rs:69-76 | `BUFFER` has length `from_i32(size)` and is all zeros; the buffer's address is returned; the request is logged; memory outside the buffer is unchanged |
| Actors.Guest.ReadArguments | actors/src/lib.rs:111-124 | the result is the decoding of exactly the `from_i32(len)` bytes at `from_i64(ptr)` |
| Actors.Guest.PlaceOnHeap | actors/src/lib.rs:82 | the encoded vector lies in memory, at an address the allocator chooses |
| Actors.Guest.Create | actors/src/lib.rs:80-87 | the host appends exactly the encoding of the value to its store; the return cell is unchanged; one `rt_create` call |
| Actors.Guest.WriteReturn | actors/src/lib.rs:103-109 | the host's return cell holds exactly the encoding of the value; the store is unchanged; one `write_return_bytes` call |
| Actors.Guest.CoolActorConstructor | actors/src/lib.rs:89-101 | the store gains exactly the encoding of the zero-valued actor; the return cell holds the encoded `NewReturn`; the import log gains `rt_create` then `write_return_bytes` and nothing else |
| HostVm.ManagedMemory.constructor | runtime/src/lib.rs:158-162 | the default cache is `(0, 0)` with no requests |
| HostVm.ManagedMemory.Alloc | runtime/src/lib.rs:166-176 | a hit returns the cached pointer without calling the allocator; a miss calls it once with `from_u32(size)`, caches `(from_i64(result), size)` and returns that pointer; the cached size stays the largest request, so the allocator runs only on a new strict maximum |
| HostVm.OversizedRequestReusesBuffer | runtime/src/lib.rs:166-169 | a request for 100 bytes, then one for 50, returns the same pointer; the allocator is called with `from_u32(100)` only if the cache held less than 100, and never for the second request |
| HostVm.FrameParses | runtime/src/lib.rs:124-127 | the frame's first 8 bytes read back as the payload length, and the remaining bytes are the payload |
| HostVm.GuestWindowOverFrame | runtime/src/lib.rs:105-107 | the guest's window over the written frame is the frame's first `len` bytes: the length prefix, then at most `len - 8` payload bytes |
| HostVm.OneBytePayloadSeenAsLength | runtime/src/lib.rs:119-129 | for a one-byte payload, the guest reads `[1]`, the low byte of the length prefix |
| HostVm.StrictDecoderRejectsConstructorCall | actors/src/lib.rs:111-121 | if the arguments encode to one byte and the decoder rejects the byte string `[1]`, the guest's decode of its window fails, so the constructor call cannot succeed |
| HostVm.Vm.constructor | runtime/src/lib.rs:55-93 | host and guest share one memory; the store and return cell are empty; the cache is empty |
| HostVm.Vm.ReadBytes | runtime/src/lib.rs:148-153 | the result has length `len`, and its i-th byte is memory cell `ptr + i` |
| HostVm.Vm.ReadBytesIsReadSlice | runtime/src/lib.rs:148-153 | `read_bytes(ptr, len)` equals `read_slice(from_u64(ptr), from_u32(len))` |
| HostVm.Vm.WriteBytes | runtime/src/lib.rs:119-130 | it requests `len + 8` bytes; `[ptr, ptr+8)` holds the little-endian length and `[ptr+8, ptr+8+len)` the payload; it returns `(ptr, payload length)`; the guest's allocator is called once exactly when `len + 8` exceeds the cached size; nothing outside the allocated buffer changes; on a cache hit the frame goes at the previously cached pointer, the cache and `BUFFER` stay as they were, and nothing outside the frame changes |
| HostVm.Vm.StoreFrame | runtime/src/lib.rs:124-127 | after the cell-by-cell copy, the `|frame|` cells at `ptr` hold the frame and every other cell is unchanged |
| HostVm.Vm.InvokeConstructor | runtime/src/lib.rs:107-109 | running the constructor export on the window and taking the pending return adds exactly the encoded zero actor to the store, leaves the return cell drained, and logs `rt_create` then `write_return_bytes`; the cache and `BUFFER` are not touched |
| HostVm.Vm.WriteArgs | runtime/src/lib.rs:114-117 | everything `write_bytes` promises, for the encoded arguments: a request of `len + 8` bytes, the frame at the cached pointer, one allocator call exactly when the cache is too small, nothing outside the allocated buffer changed; on a cache hit the previously cached pointer is reused, the cache and `BUFFER` stay as they were, and nothing outside the frame changes |
| HostVm.Vm.Call | runtime/src/lib.rs:101-112 | an unknown export fails with nothing changed; any export found by name makes one cache request of `len + 8` bytes and calls the guest's allocator once exactly when that exceeds the cached size, and on a cache hit the cached pointer, size and `BUFFER` stay as they were; a wrongly typed export fails with the arguments' frame at the cached pointer and the host environment untouched; the constructor returns `NewReturn`, adds exactly one blob (the encoded zero actor) to the store, leaves the return cell drained, and logs `rt_create` then `write_return_bytes` |

## Left out

- serde_cbor is not modelled: encoders and decoders are fields of a `Codec` value, not CBOR.
- wasmer plumbing is not modelled: `Store`, `Module::from_file`, `imports!`, `Instance::new`, `get_memory`, `LazyInit` and `MemoryView`. Linear memory is a fixed-size array shared by the two objects. Memory growth is not modelled.
- The `Arc`, `Mutex` and atomics are plain fields, because all use is sequential.
- `println!`, `dbg!`, the `dbg` import and the guest's `debug` are diagnostics only. They are left out, and `dbg` calls are not in the import log.
- The panic handler and `wee_alloc` are out of scope. Where the allocator puts `BUFFER` or an encoded vector is any in-bounds address; the model picks one nondeterministically. So the model does not state that heap blocks are disjoint from `BUFFER`. It also does not model the allocator's bookkeeping writes or running out of memory.
- Guest memory is assumed smaller than 4 GiB. Then every wasm32 length fits in `u32`.
- Actors.Guest.ReadArguments: requires the window to lie inside memory, so it does not model the truncation of a `u64` address to a 32-bit pointer in `ptr as _`. No caller passes an address of 2^32 or more.
- The commented-out `add_one_cbor`, `return_value` and protocol sketches in `actors/src/lib.rs` describe behaviour that does not exist.
- Each `unwrap` and slice panic is a precondition, not an error result: decode failures, out-of-bounds windows, `len + 8` overflowing `u32`, and a missing pending return.
- `Vm::run` only hard-codes one call. `HostVm.Vm.Call` is modelled at that instantiation: `NewParams` in, `NewReturn` out.
- `Vm::alloc`, `Vm::memory`, `Vm::allocator` and `Vm::read_return` are one-line lookups and are inlined into their callers.
- HostVm.Vm.Call: in the constructor branch, does not state the exact `(ptr, len)` pair the export receives, only what follows from it (`HostVm.GuestWindowOverFrame`). It does not state the memory contents after the constructor runs, because the guest's heap allocator may place the vectors `to_vec` builds anywhere.
- A guest that traps inside `Function::call` is left out. A panic spins in the guest's `loop {}` panic handler, so the host never gets an error.

=== FILE: actors.dfy ===
// The guest module (actors/src/lib.rs), compiled for wasm32: `usize` and
// pointers are 32 bits wide. The process-wide `static mut BUFFER` and the
// guest's view of linear memory are the state of one `Guest` object; the
// host's imports are the methods of the `HostRuntime.Runtime` it is given.

module Actors {
  import opened Shared
  import opened Cbor
  import HostRuntime

  /** `add_one`: `a.wrapping_add(1)`, computed on the unsigned bit pattern. */
  function AddOne(a: I32): (r: I32)
    ensures a < I32_MAX ==> r == a + 1
    ensures a == I32_MAX ==> r == I32_MIN
  {
    var u := FromI32(a) + 1;
    assert u % TWO_32 == if u == TWO_32 then 0 else u;
    FromU32(u % TWO_32)
  }

  /** The crate's unit test: `add_one(1) == 2`. */
  lemma AddOneOfOne()
    ensures AddOne(1) == 2
  {
  }

  class Guest {
    /** The guest's linear memory, which the host reads and writes too. */
    const memory: array<Byte>
    /** serde_cbor as linked into the guest. */
    const codec: Codec
    /** `BUFFER` occupies memory[bufferBase .. bufferBase + bufferLen]. */
    var bufferBase: nat
    var bufferLen: nat
    /** The size argument of every `alloc_buffer` call, in order. */
    ghost var allocRequests: seq<I32>

    ghost predicate Valid()
      reads this
    {
      memory.Length < TWO_32 && bufferBase + bufferLen <= memory.Length
    }

    /** The contents of `BUFFER`. */
    ghost function Buffer(): seq<Byte>
      reads this, memory
      requires Valid()
    {
      memory[bufferBase..bufferBase + bufferLen]
    }

    /** A freshly instantiated guest: `BUFFER` is `Vec::new()`. */
    constructor (memory: array<Byte>, codec: Codec)
      requires memory.Length < TWO_32
      ensures Valid()
      ensures this.memory == memory && this.codec == codec
      ensures bufferLen == 0 && allocRequests == []
    {
      this.memory := memory;
      this.codec := codec;
      bufferBase, bufferLen := 0, 0;
      allocRequests := [];
    }

    /**
     * `alloc_buffer`: clear `BUFFER`, resize it to `size as usize` zero
     * bytes and return its address. On wasm32 `size as usize` reinterprets
     * the bits, i.e. it is `from_i32(size)`. Where the global allocator puts
     * the vector is its own choice: any place in memory that fits.
     */
    method AllocBuffer(size: I32) returns (p: I64)
      requires Valid()
      requires FromI32(size) <= memory.Length
      modifies this, memory
      ensures Valid()
      ensures bufferLen == FromI32(size)
      ensures Buffer() == seq(FromI32(size), _ => 0)
      ensures p == bufferBase
      ensures allocRequests == old(allocRequests) + [size]
      ensures forall i :: 0 <= i < memory.Length && !(bufferBase <= i < bufferBase + bufferLen) ==> memory[i] == old(memory[i])
    {
      var n := FromI32(size);
      assert 0 + n <= memory.Length;
      var base: nat :| base + n <= memory.Length;
      forall i | base <= i < base + n {
        memory[i] := 0;
      }
      bufferBase, bufferLen := base, n;
      allocRequests := allocRequests + [size];
      p := base;
    }

    /**
     * `read_arguments`: decode the `from_i32(len)` bytes at address
     * `from_i64(ptr)`. A failed decode is an `unwrap` panic in the source.
     */
    function ReadArguments<T>(ptr: I64, len: I32, decode: seq<Byte> -> Decoded<T>): (args: T)
      reads memory
      requires FromI64(ptr) + FromI32(len) <= memory.Length
      requires decode(memory[FromI64(ptr)..FromI64(ptr) + FromI32(len)]).Decoded?
      ensures decode(memory[FromI64(ptr)..FromI64(ptr) + FromI32(len)]) == Decoded(args)
    {
      decode(memory[FromI64(ptr)..FromI64(ptr) + FromI32(len)]).value
    }

    /**
     * The vector `serde_cbor::to_vec` returns, placed by the guest's
     * allocator at an address of its choosing.
     */
    method PlaceOnHeap(bytes: seq<Byte>) returns (addr: U64)
      requires Valid()
      requires |bytes| <= memory.Length
      modifies memory
      ensures addr + |bytes| <= memory.Length
      ensures memory[addr..addr + |bytes|] == bytes
    {
      assert 0 + |bytes| <= memory.Length;
      var a: nat :| a + |bytes| <= memory.Length;
      forall i | 0 <= i < |bytes| {
        memory[a + i] := bytes[i];
      }
      addr := a;
    }

    /** `Runtime::create`: encode the value and hand its address and length to `rt_create`. */
    method Create<T>(value: T, encode: T -> seq<Byte>, host: HostRuntime.Runtime)
      requires Valid() && host.memory == memory
      requires |encode(value)| <= memory.Length
      modifies memory, host
      ensures host.store == old(host.store) + [encode(value)]
      ensures host.returnValue == old(host.returnValue)
      ensures host.imports == old(host.imports) + [HostRuntime.RtCreateCall]
    {
      var bytes := encode(value);
      var addr := PlaceOnHeap(bytes);
      host.ReadSliceOfGuestWindow(addr, |bytes|);
      host.RtCreate(FromU64(addr), FromU32(|bytes|));
    }

    /** `write_return`: encode the value and hand its address and length to `write_return_bytes`. */
    method WriteReturn<T>(value: T, encode: T -> seq<Byte>, host: HostRuntime.Runtime)
      requires Valid() && host.memory == memory
      requires |encode(value)| <= memory.Length
      modifies memory, host
      ensures host.returnValue == encode(value)
      ensures host.store == old(host.store)
      ensures host.imports == old(host.imports) + [HostRuntime.WriteReturnBytesCall]
    {
      var bytes := encode(value);
      var addr := PlaceOnHeap(bytes);
      host.ReadSliceOfGuestWindow(addr, |bytes|);
      host.WriteReturnBytes(FromU64(addr), FromU32(|bytes|));
    }

    /**
     * The exported `cool_actor_constructor`: decode the arguments, build
     * the actor, record it with `rt_create`, then return an empty
     * `NewReturn` through `write_return_bytes`.
     */
    method CoolActorConstructor(ptr: I64, len: I32, host: HostRuntime.Runtime)
      requires Valid() && host.memory == memory
      requires FromI64(ptr) + FromI32(len) <= memory.Length
      requires codec.decodeParams(memory[FromI64(ptr)..FromI64(ptr) + FromI32(len)]).Decoded?
      requires |codec.encodeActor(CoolActor(0))| <= memory.Length
      requires |codec.encodeReturn(NewReturn)| <= memory.Length
      modifies memory, host
      ensures host.store == old(host.store) + [codec.encodeActor(CoolActor(0))]
      ensures host.returnValue == codec.encodeReturn(NewReturn)
      ensures host.imports == old(host.imports) + [HostRuntime.RtCreateCall, HostRuntime.WriteReturnBytesCall]
    {
      var args := ReadArguments(ptr, len, codec.decodeParams);
      var actor := NewCoolActor(args);
      Create(actor, codec.encodeActor, host);
      WriteReturn(NewReturn, codec.encodeReturn, host);
    }
  }
}

=== FILE: cbor.dfy ===
// The serde_cbor encoder and decoder, which both sides use but which is a
// foreign library: it enters the model only through the functions a Codec
// value carries, at the record types the core exchanges. Nothing is assumed
// about those functions except where a member states it as a precondition.

module Cbor {
  import opened Shared

  /** Rust's `Option`. */
  datatype Option<T> = None | Some(value: T)

  /** The outcome of `serde_cbor::from_slice`. */
  datatype Decoded<T> = Decoded(value: T) | DecodeError

  /** `serde_cbor::to_vec` and `serde_cbor::from_slice` at the types in use. */
  datatype Codec = Codec(
    encodeParams: NewParams -> seq<Byte>,
    decodeParams: seq<Byte> -> Decoded<NewParams>,
    encodeActor: CoolActor -> seq<Byte>,
    encodeReturn: NewReturn -> seq<Byte>,
    decodeOptionalReturn: seq<Byte> -> Decoded<Option<NewReturn>>)
}

=== FILE: host_runtime.dfy ===
// The host's environment object `Runtime` (runtime/src/lib.rs:8-46) and the
// two host functions the guest imports, `rt_create` and
// `write_return_bytes` (runtime/src/lib.rs:63-72). The guest's linear memory
// is the array `memory`; `store` is the append-only list of actor blobs and
// `returnValue` the single pending-return cell.

module HostRuntime {
  import opened Shared
  import opened Cbor

  /** A call the guest made into one of the host's imports. */
  datatype ImportCall = RtCreateCall | WriteReturnBytesCall

  class Runtime {
    var store: seq<seq<Byte>>
    var returnValue: seq<Byte>
    /** Every import call served so far, in order. */
    ghost var imports: seq<ImportCall>
    const memory: array<Byte>

    /** `Runtime::new`: an empty store and an empty return cell. */
    constructor (memory: array<Byte>)
      ensures this.memory == memory
      ensures store == [] && returnValue == [] && imports == []
    {
      this.memory := memory;
      store, returnValue, imports := [], [], [];
    }

    /** `read_slice`: copy `from_i32(len)` bytes starting at `from_i64(ptr)` out of linear memory. */
    function ReadSlice(ptr: I64, len: I32): (r: seq<Byte>)
      reads memory
      requires FromI64(ptr) + FromI32(len) <= memory.Length
      ensures |r| == FromI32(len)
      ensures forall i :: 0 <= i < |r| ==> r[i] == memory[FromI64(ptr) + i]
    {
      memory[FromI64(ptr)..FromI64(ptr) + FromI32(len)]
    }

    /** The guest passes an unsigned window as `(from_u64(addr), from_u32(len))`; the host reads exactly that window. */
    lemma ReadSliceOfGuestWindow(addr: U64, len: U32)
      requires addr + len <= memory.Length
      ensures FromI64(FromU64(addr)) + FromI32(FromU32(len)) <= memory.Length
      ensures ReadSlice(FromU64(addr), FromU32(len)) == memory[addr..addr + len]
    {
    }

    /** `rt_create`: append a copy of the guest's bytes to the store. */
    method RtCreate(ptr: I64, len: I32)
      requires FromI64(ptr) + FromI32(len) <= memory.Length
      modifies this
      ensures store == old(store) + [ReadSlice(ptr, len)]
      ensures returnValue == old(returnValue)
      ensures imports == old(imports) + [RtCreateCall]
    {
      var s := ReadSlice(ptr, len);
      store := store + [s];
      imports := imports + [RtCreateCall];
    }

    /** `write_return_bytes`: overwrite the pending-return cell with a copy of the guest's bytes. */
    method WriteReturnBytes(ptr: I64, len: I32)
      requires FromI64(ptr) + FromI32(len) <= memory.Length
      modifies this
      ensures returnValue == ReadSlice(ptr, len)
      ensures store == old(store)
      ensures imports == old(imports) + [WriteReturnBytesCall]
    {
      returnValue := ReadSlice(ptr, len);
      imports := imports + [WriteReturnBytesCall];
    }

    /**
     * `pop_return`: decode the pending return as an `Option` and empty the
     * cell. The decoding failure is an `unwrap` panic in the source, hence
     * the precondition.
     */
    method PopReturn<T>(decode: seq<Byte> -> Decoded<Option<T>>) returns (r: Option<T>)
      requires decode(returnValue).Decoded?
      modifies this
      ensures r == decode(old(returnValue)).value
      ensures returnValue == []
      ensures store == old(store) && imports == old(imports)
    {
      r := decode(returnValue).value;
      returnValue := [];
    }
  }
}

=== FILE: host_vm.dfy ===
// The host's call machinery (runtime/src/lib.rs:48-177): the allocation
// cache `ManagedMemory`, the framing of arguments into guest memory, and
// `Vm::call`. The guest instance is an `Actors.Guest` sharing the linear
// memory array with the host's `HostRuntime.Runtime`.

module HostVm {
  import opened Shared
  import opened Cbor
  import opened HostRuntime
  import opened Actors

  // ---------------------------------------------------------------------
  // The allocation cache (runtime/src/lib.rs:157-177)

  /** The largest element of `s`, or 0 for the empty sequence. */
  function MaxOf(s: seq<U32>): (m: nat)
    ensures forall i :: 0 <= i < |s| ==> s[i] <= m
    ensures s == [] ==> m == 0
    ensures s != [] ==> exists i :: 0 <= i < |s| && s[i] == m
  {
    if s == [] then 0
    else
      var rest := MaxOf(s[1..]);
      if s[0] >= rest then s[0] else rest
  }

  lemma MaxOfAppend(s: seq<U32>, x: U32)
    ensures MaxOf(s + [x]) == if x > MaxOf(s) then x else MaxOf(s)
  {
    var t := s + [x];
    assert t[|s|] == x;
    if s != [] {
      var i :| 0 <= i < |s| && s[i] == MaxOf(s);
      assert t[i] == s[i];
    }
  }

  class ManagedMemory {
    var ptr: U64
    var len: U32
    /** Every size requested so far, in order. */
    ghost var requests: seq<U32>

    /** The cached size is the largest size ever requested. */
    ghost predicate Valid()
      reads this
    {
      len == MaxOf(requests)
    }

    /** `ManagedMemory::default()`: nothing cached. */
    constructor ()
      ensures Valid()
      ensures ptr == 0 && len == 0 && requests == []
    {
      ptr, len, requests := 0, 0, [];
    }

    /**
     * `ManagedMemory::alloc`: reuse the cached buffer when it is large
     * enough, otherwise call the guest's `alloc_buffer` with
     * `from_u32(size)` and cache `(from_i64(result), size)`.
     */
    method Alloc(size: U32, allocator: Guest) returns (p: U64)
      requires Valid() && allocator.Valid()
      requires size <= len || size <= allocator.memory.Length
      modifies this, allocator, allocator.memory
      ensures Valid() && allocator.Valid()
      ensures requests == old(requests) + [size]
      ensures p == ptr && size <= len && old(len) <= len
      ensures |allocator.allocRequests| == |old(allocator.allocRequests)| + (if size > MaxOf(old(requests)) then 1 else 0)
      ensures old(len) >= size ==>
        ptr == old(ptr) && len == old(len) && unchanged(allocator) && unchanged(allocator.memory)
      ensures old(len) < size ==>
        len == size && ptr == allocator.bufferBase && allocator.bufferLen == size &&
        allocator.allocRequests == old(allocator.allocRequests) + [FromU32(size)] &&
        allocator.Buffer() == seq(size, _ => 0)
      ensures forall i :: 0 <= i < allocator.memory.Length && !(ptr <= i < ptr + len) ==>
        allocator.memory[i] == old(allocator.memory[i])
    {
      MaxOfAppend(requests, size);
      requests := requests + [size];
      if len >= size {
        p := ptr;
        return;
      }
      var result := allocator.AllocBuffer(FromU32(size));
      p := FromI64(result);
      ptr, len := p, size;
    }
  }

  /** Two requests, the second smaller: one guest allocation, one address. */
  method OversizedRequestReusesBuffer(mm: ManagedMemory, guest: Guest) returns (first: U64, second: U64)
    requires mm.Valid() && guest.Valid() && 100 <= guest.memory.Length
    modifies mm, guest, guest.memory
    ensures first == second
    ensures guest.allocRequests == old(guest.allocRequests) + (if old(mm.len) < 100 then [FromU32(100)] else [])
  {
    first := mm.Alloc(100, guest);
    ghost var afterFirst := guest.allocRequests;
    second := mm.Alloc(50, guest);
    // the second, smaller request does not reach the guest's allocator
    assert guest.allocRequests == afterFirst;
  }

  // ---------------------------------------------------------------------
  // The frame `write_bytes` lays out, and what the guest reads of it

  /** The 8-byte little-endian length followed by the payload. */
  function Frame(payload: seq<Byte>): (f: seq<Byte>)
    requires |payload| < TWO_64
    ensures |f| == |payload| + 8
  {
    U64ToLeBytes(|payload|) + payload
  }

  /** A frame parses back: its prefix reads as the payload length and the rest is the payload. */
  lemma FrameParses(payload: seq<Byte>)
    requires |payload| < TWO_64
    ensures U64FromLeBytes(Frame(payload)[..8]) == |payload|
    ensures Frame(payload)[8..] == payload
  {
    Pow256Widths();
    LeValueOfLeBytes(|payload|, 8);
    assert Frame(payload)[..8] == U64ToLeBytes(|payload|);
  }

  /** What the guest reads when given the prefix's address and the payload's length. */
  function ArgumentView(payload: seq<Byte>): seq<Byte>
    requires |payload| < TWO_64
  {
    Frame(payload)[..|payload|]
  }

  /**
   * The guest's window over a frame written at `ptr` and passed as
   * `(from_u64(ptr), from_u32(len))` is the first `len` bytes of the frame,
   * starting with the length prefix rather than with the payload.
   */
  lemma GuestWindowOverFrame(mem: seq<Byte>, ptr: U64, payload: seq<Byte>)
    requires |payload| < TWO_32
    requires ptr + |payload| + 8 <= |mem|
    requires mem[ptr..ptr + |payload| + 8] == Frame(payload)
    ensures FromI64(FromU64(ptr)) == ptr && FromI32(FromU32(|payload|)) == |payload|
    ensures mem[ptr..ptr + |payload|] == ArgumentView(payload)
    ensures |payload| <= 8 ==> ArgumentView(payload) == U64ToLeBytes(|payload|)[..|payload|]
    ensures |payload| > 8 ==> ArgumentView(payload) == U64ToLeBytes(|payload|) + payload[..|payload| - 8]
  {
    assert mem[ptr..ptr + |payload|] == mem[ptr..ptr + |payload| + 8][..|payload|];
  }

  /** A one-byte payload is seen by the guest as the byte 1, its own length. */
  lemma OneBytePayloadSeenAsLength(b: Byte)
    ensures ArgumentView([b]) == [1]
  {
  }

  // ---------------------------------------------------------------------
  // Vm (runtime/src/lib.rs:48-154)

  const CONSTRUCTOR := "cool_actor_constructor"
  /** The functions the guest module exports. */
  const FUNCTION_EXPORTS := {"add_one", "alloc_buffer", "cool_actor_constructor"}

  /** Why `Vm::call` fails: `get_function` found no function export of that name, or `Function::call` rejected the arguments. */
  datatype CallError = MissingExport | CallFailed
  datatype Result<T> = Ok(value: T) | Err(error: CallError)

  /** What the `unwrap`s along a constructor call demand. */
  ghost predicate ConstructorCallSucceeds(codec: Codec, args: NewParams, memoryLength: nat)
  {
    var payload := codec.encodeParams(args);
    |payload| + 8 <= memoryLength < TWO_32 &&
    codec.decodeParams(ArgumentView(payload)).Decoded? &&
    |codec.encodeActor(CoolActor(0))| <= memoryLength &&
    |codec.encodeReturn(NewReturn)| <= memoryLength &&
    codec.decodeOptionalReturn(codec.encodeReturn(NewReturn)).Decoded? &&
    codec.decodeOptionalReturn(codec.encodeReturn(NewReturn)).value.Some?
  }

  /**
   * When the arguments encode to one byte and the decoder rejects the
   * single byte 1 (a CBOR integer, not a map), the guest's decode of its
   * window fails, so the constructor call cannot succeed.
   */
  lemma StrictDecoderRejectsConstructorCall(codec: Codec, args: NewParams, memoryLength: nat)
    requires |codec.encodeParams(args)| == 1
    requires codec.decodeParams([1]).DecodeError?
    ensures !ConstructorCallSucceeds(codec, args, memoryLength)
  {
    OneBytePayloadSeenAsLength(codec.encodeParams(args)[0]);
    assert [codec.encodeParams(args)[0]] == codec.encodeParams(args);
  }

  class Vm {
    const env: Runtime
    const guest: Guest
    const mm: ManagedMemory
    const memory: array<Byte>
    const codec: Codec

    /** Host and guest share one memory, and the cache describes the guest's current `BUFFER`. */
    ghost predicate Valid()
      reads env, guest, mm
    {
      env.memory == memory && guest.memory == memory && guest.codec == codec &&
      guest.Valid() && mm.Valid() &&
      (mm.len == 0 || (mm.ptr == guest.bufferBase && mm.len == guest.bufferLen))
    }

    /** `Vm::new` once the module is instantiated. */
    constructor (codec: Codec, memory: array<Byte>)
      requires memory.Length < TWO_32
      ensures Valid()
      ensures this.memory == memory && this.codec == codec
      ensures fresh(env) && fresh(guest) && fresh(mm)
      ensures env.store == [] && env.returnValue == [] && env.imports == []
      ensures mm.len == 0 && guest.allocRequests == []
    {
      this.memory := memory;
      this.codec := codec;
      env := new Runtime(memory);
      guest := new Guest(memory, codec);
      mm := new ManagedMemory();
    }

    /** `read_bytes`: the `len` bytes at address `ptr`. */
    function ReadBytes(ptr: U64, len: U32): (r: seq<Byte>)
      reads memory
      requires ptr + len <= memory.Length
      ensures |r| == len
      ensures forall i :: 0 <= i < len ==> r[i] == memory[ptr + i]
    {
      memory[ptr..ptr + len]
    }

    /** `read_bytes` reads what `read_slice` reads for the same window given in signed form. */
    lemma ReadBytesIsReadSlice(ptr: U64, len: U32)
      requires Valid()
      requires ptr + len <= memory.Length
      ensures ReadBytes(ptr, len) == env.ReadSlice(FromU64(ptr), FromU32(len))
    {
    }

    /**
     * `write_bytes`: allocate `len + 8` bytes and write the frame
     * (length prefix, then payload) there cell by cell; return the frame's
     * address and the payload's length.
     */
    method WriteBytes(bytes: seq<Byte>) returns (ptr: U64, len: U32)
      requires Valid()
      requires |bytes| + 8 <= memory.Length
      modifies mm, guest, memory
      ensures Valid()
      ensures len == |bytes| && ptr == mm.ptr && ptr + len + 8 <= memory.Length
      ensures mm.requests == old(mm.requests) + [len + 8]
      ensures ReadBytes(ptr, len + 8) == Frame(bytes)
      ensures forall i :: 0 <= i < memory.Length && !(ptr <= i < ptr + mm.len) ==> memory[i] == old(memory[i])
      ensures old(mm.len) >= len + 8 ==>
        forall i :: 0 <= i < memory.Length && !(ptr <= i < ptr + len + 8) ==> memory[i] == old(memory[i])
      ensures |guest.allocRequests| == |old(guest.allocRequests)| + (if len + 8 > old(mm.len) then 1 else 0)
      ensures old(mm.len) >= len + 8 ==> ptr == old(mm.ptr) && mm.len == old(mm.len) && unchanged(guest)
    {
      len := |bytes|;
      ptr := mm.Alloc(len + 8, guest);
      var frame := Frame(bytes);
      StoreFrame(ptr, frame);
      assert ReadBytes(ptr, len + 8) == frame;
    }

    /** The cell-by-cell copy of `write_bytes`: `frame` is written at `ptr`, nothing else changes. */
    method StoreFrame(ptr: nat, frame: seq<Byte>)
      requires ptr + |frame| <= memory.Length
      modifies memory
      ensures memory[ptr..ptr + |frame|] == frame
      ensures forall k :: 0 <= k < memory.Length && !(ptr <= k < ptr + |frame|) ==> memory[k] == old(memory[k])
    {
      var i := 0;
      while i < |frame|
        invariant 0 <= i <= |frame|
        invariant forall k :: 0 <= k < i ==> memory[ptr + k] == frame[k]
        invariant forall k :: 0 <= k < memory.Length && !(ptr <= k < ptr + i) ==> memory[k] == old(memory[k])
      {
        memory[ptr + i] := frame[i];
        i := i + 1;
      }
      assert memory[ptr..ptr + |frame|] == frame;
    }

    /** `write_args`: encode the arguments and write them as a frame. */
    method WriteArgs<T>(args: T, encode: T -> seq<Byte>) returns (ptr: U64, len: U32)
      requires Valid()
      requires |encode(args)| + 8 <= memory.Length
      modifies mm, guest, memory
      ensures Valid()
      ensures len == |encode(args)| && ptr == mm.ptr && ptr + len + 8 <= memory.Length
      ensures mm.requests == old(mm.requests) + [len + 8]
      ensures ReadBytes(ptr, len + 8) == Frame(encode(args))
      ensures forall i :: 0 <= i < memory.Length && !(ptr <= i < ptr + mm.len) ==> memory[i] == old(memory[i])
      ensures old(mm.len) >= len + 8 ==>
        forall i :: 0 <= i < memory.Length && !(ptr <= i < ptr + len + 8) ==> memory[i] == old(memory[i])
      ensures |guest.allocRequests| == |old(guest.allocRequests)| + (if len + 8 > old(mm.len) then 1 else 0)
      ensures old(mm.len) >= len + 8 ==> ptr == old(mm.ptr) && mm.len == old(mm.len) && unchanged(guest)
    {
      ptr, len := WriteBytes(encode(args));
    }

    /**
     * `call`, at the instantiation `Vm::run` uses: look the export up,
     * write the arguments, call the export with `(from_u64(ptr),
     * from_u32(len))`, then take and decode the pending return.
     */
    method Call(name: string, args: NewParams) returns (r: Result<NewReturn>)
      requires Valid()
      requires name in FUNCTION_EXPORTS ==> |codec.encodeParams(args)| + 8 <= memory.Length
      requires name == CONSTRUCTOR ==> ConstructorCallSucceeds(codec, args, memory.Length)
      modifies mm, guest, memory, env
      ensures Valid()
      ensures name !in FUNCTION_EXPORTS ==>
        r == Err(MissingExport) && unchanged(mm, guest, memory, env)
      ensures name in FUNCTION_EXPORTS ==>
        mm.requests == old(mm.requests) + [|codec.encodeParams(args)| + 8]
      ensures name in FUNCTION_EXPORTS && name != CONSTRUCTOR ==>
        r == Err(CallFailed) && unchanged(env) &&
        mm.ptr + |codec.encodeParams(args)| + 8 <= memory.Length &&
        ReadBytes(mm.ptr, |codec.encodeParams(args)| + 8) == Frame(codec.encodeParams(args))
      ensures name in FUNCTION_EXPORTS ==>
        |guest.allocRequests| ==
          |old(guest.allocRequests)| + (if |codec.encodeParams(args)| + 8 > old(mm.len) then 1 else 0)
      ensures name in FUNCTION_EXPORTS && old(mm.len) >= |codec.encodeParams(args)| + 8 ==>
        mm.ptr == old(mm.ptr) && mm.len == old(mm.len) && unchanged(guest)
      ensures name == CONSTRUCTOR ==>
        r == Ok(NewReturn) &&
        env.store == old(env.store) + [codec.encodeActor(CoolActor(0))] &&
        env.returnValue == [] &&
        env.imports == old(env.imports) + [RtCreateCall, WriteReturnBytesCall]
    {
      if name !in FUNCTION_EXPORTS {
        return Err(MissingExport);
      }
      var ptr, len := WriteArgs(args, codec.encodeParams);
      ghost var payload := codec.encodeParams(args);
      ghost var requested := mm.requests;
      assert len == |payload| && requested == old(mm.requests) + [len + 8];
      if name != CONSTRUCTOR {
        return Err(CallFailed);
      }
      GuestWindowOverFrame(memory[..], ptr, payload);
      assert memory[ptr..ptr + len] == ArgumentView(payload);
      var out := InvokeConstructor(ptr, len);
      // running the guest leaves the payload (its encoder reads no state) and the cache as they were
      assert codec.encodeParams(args) == payload && mm.requests == requested;
      assert out == NewReturn by {
        match out { case NewReturn => }
      }
      r := Ok(out);
    }

    /**
     * The constructor branch of `call`: run the guest's export on the
     * window `(from_u64(ptr), from_u32(len))`, then take and decode the
     * pending return. Only the guest's memory and the host environment
     * change; the allocation cache and `BUFFER` stay as they are.
     */
    method InvokeConstructor(ptr: U64, len: U32) returns (out: NewReturn)
      requires Valid()
      requires ptr + len <= memory.Length
      requires codec.decodeParams(memory[ptr..ptr + len]).Decoded?
      requires |codec.encodeActor(CoolActor(0))| <= memory.Length
      requires |codec.encodeReturn(NewReturn)| <= memory.Length
      requires codec.decodeOptionalReturn(codec.encodeReturn(NewReturn)).Decoded?
      requires codec.decodeOptionalReturn(codec.encodeReturn(NewReturn)).value.Some?
      modifies memory, env
      ensures Valid()
      ensures env.store == old(env.store) + [codec.encodeActor(CoolActor(0))]
      ensures env.returnValue == []
      ensures env.imports == old(env.imports) + [RtCreateCall, WriteReturnBytesCall]
    {
      guest.CoolActorConstructor(FromU64(ptr), FromU32(len), env);
      var returned := env.PopReturn(codec.decodeOptionalReturn);
      assert returned.Some?;
      out := returned.value;
    }
  }
}

=== FILE: shared.dfy ===
// The types shared by host and guest (shared/src/lib.rs): the actor state,
// the constructor's parameter and return records, and the bit
// reinterpretations between the signed integers a wasm call can carry and
// the unsigned integers used for addresses and lengths.

module Shared {

  type Byte = b: int | 0 <= b < 0x100
  type I32 = x: int | -0x8000_0000 <= x < 0x8000_0000
  type U32 = x: int | 0 <= x < 0x1_0000_0000
  type I64 = x: int | -0x8000_0000_0000_0000 <= x < 0x8000_0000_0000_0000
  type U64 = x: int | 0 <= x < 0x1_0000_0000_0000_0000

  const TWO_31: int := 0x8000_0000
  const TWO_32: int := 0x1_0000_0000
  const TWO_63: int := 0x8000_0000_0000_0000
  const TWO_64: int := 0x1_0000_0000_0000_0000

  const I32_MAX: I32 := 0x7FFF_FFFF
  const I32_MIN: I32 := -0x8000_0000

  /** The persisted state of one actor. */
  datatype CoolActor = CoolActor(value: U32)

  /** The (empty) argument record of the actor's constructor. */
  datatype NewParams = NewParams

  /** The (empty) result record of the actor's constructor. */
  datatype NewReturn = NewReturn

  /** `CoolActor::new`: the parameters are ignored and the state starts at zero. */
  function NewCoolActor(params: NewParams): (actor: CoolActor)
    ensures actor.value == 0
  {
    CoolActor(0)
  }

  // ---------------------------------------------------------------------
  // Little-endian byte images

  function Pow256(n: nat): (p: nat)
    ensures p > 0
  {
    if n == 0 then 1 else 256 * Pow256(n - 1)
  }

  lemma Pow256Widths()
    ensures Pow256(4) == TWO_32 && Pow256(8) == TWO_64
  {
  }

  /** The `width` least significant bytes of `n`, least significant first. */
  function LeBytes(n: nat, width: nat): (r: seq<Byte>)
    ensures |r| == width
  {
    if width == 0 then [] else [n % 256] + LeBytes(n / 256, width - 1)
  }

  /** The number whose little-endian image is `bs`. */
  function LeValue(bs: seq<Byte>): (v: nat)
    ensures v < Pow256(|bs|)
  {
    if bs == [] then 0 else bs[0] + 256 * LeValue(bs[1..])
  }

  /** Reading back the image of a number that fits gives the number. */
  lemma {:induction false} LeValueOfLeBytes(n: nat, width: nat)
    requires n < Pow256(width)
    ensures LeValue(LeBytes(n, width)) == n
  {
    if width > 0 {
      var r := LeBytes(n, width);
      assert r[1..] == LeBytes(n / 256, width - 1);
      LeValueOfLeBytes(n / 256, width - 1);
    }
  }

  /** Every byte sequence is the image of the number it reads as. */
  lemma {:induction false} LeBytesOfLeValue(bs: seq<Byte>)
    ensures LeBytes(LeValue(bs), |bs|) == bs
  {
    if bs != [] {
      var v := LeValue(bs[1..]);
      assert (bs[0] + 256 * v) % 256 == bs[0];
      assert (bs[0] + 256 * v) / 256 == v;
      LeBytesOfLeValue(bs[1..]);
    }
  }

  // ---------------------------------------------------------------------
  // to_le_bytes / from_le_bytes of the four integer types: a signed value
  // is laid out in two's complement.

  function U64ToLeBytes(x: U64): (r: seq<Byte>)
    ensures |r| == 8
  {
    LeBytes(x, 8)
  }

  function I64ToLeBytes(x: I64): (r: seq<Byte>)
    ensures |r| == 8
  {
    LeBytes(if x < 0 then x + TWO_64 else x, 8)
  }

  function U32ToLeBytes(x: U32): (r: seq<Byte>)
    ensures |r| == 4
  {
    LeBytes(x, 4)
  }

  function I32ToLeBytes(x: I32): (r: seq<Byte>)
    ensures |r| == 4
  {
    LeBytes(if x < 0 then x + TWO_32 else x, 4)
  }

  function U64FromLeBytes(bs: seq<Byte>): U64
    requires |bs| == 8
  {
    Pow256Widths();
    LeValue(bs)
  }

  function I64FromLeBytes(bs: seq<Byte>): I64
    requires |bs| == 8
  {
    Pow256Widths();
    var u := LeValue(bs);
    if u < TWO_63 then u else u - TWO_64
  }

  function U32FromLeBytes(bs: seq<Byte>): U32
    requires |bs| == 4
  {
    Pow256Widths();
    LeValue(bs)
  }

  function I32FromLeBytes(bs: seq<Byte>): I32
    requires |bs| == 4
  {
    Pow256Widths();
    var u := LeValue(bs);
    if u < TWO_31 then u else u - TWO_32
  }

  /** Encoding a signed 64-bit value and decoding the bytes as the same type is the identity. */
  lemma I64BytesRoundTrip(x: I64)
    ensures I64FromLeBytes(I64ToLeBytes(x)) == x
  {
    Pow256Widths();
    LeValueOfLeBytes(if x < 0 then x + TWO_64 else x, 8);
  }

  /** Every 8-byte pattern is the image of exactly one signed 64-bit value. */
  lemma I64BytesCover(bs: seq<Byte>)
    requires |bs| == 8
    ensures I64ToLeBytes(I64FromLeBytes(bs)) == bs
  {
    LeBytesOfLeValue(bs);
  }

  /** Every 4-byte pattern is the image of exactly one signed 32-bit value. */
  lemma I32BytesCover(bs: seq<Byte>)
    requires |bs| == 4
    ensures I32ToLeBytes(I32FromLeBytes(bs)) == bs
  {
    LeBytesOfLeValue(bs);
  }

  // ---------------------------------------------------------------------
  // The four reinterpretations (shared/src/lib.rs:30-48)

  /** `from_i64`: the bits of a signed pointer read as unsigned. */
  function FromI64(val: I64): (r: U64)
    ensures val >= 0 ==> r == val
    ensures val < 0 ==> r == val + TWO_64
  {
    Pow256Widths();
    LeValueOfLeBytes(if val < 0 then val + TWO_64 else val, 8);
    U64FromLeBytes(I64ToLeBytes(val))
  }

  /** `from_u64`: the bits of an unsigned pointer read as signed. */
  function FromU64(val: U64): (r: I64)
    ensures r < 0 <==> val >= TWO_63
    ensures val < TWO_63 ==> r == val
    ensures val >= TWO_63 ==> r == val - TWO_64
  {
    Pow256Widths();
    LeValueOfLeBytes(val, 8);
    I64FromLeBytes(U64ToLeBytes(val))
  }

  /** `from_u32`: the bits of an unsigned length read as signed. */
  function FromU32(val: U32): (r: I32)
    ensures r < 0 <==> val >= TWO_31
    ensures val < TWO_31 ==> r == val
    ensures val >= TWO_31 ==> r == val - TWO_32
  {
    Pow256Widths();
    LeValueOfLeBytes(val, 4);
    I32FromLeBytes(U32ToLeBytes(val))
  }

  /** `from_i32`: the bits of a signed length read as unsigned. */
  function FromI32(val: I32): (r: U32)
    ensures val >= 0 ==> r == val
    ensures val < 0 ==> r == val + TWO_32
  {
    Pow256Widths();
    LeValueOfLeBytes(if val < 0 then val + TWO_32 else val, 4);
    U32FromLeBytes(I32ToLeBytes(val))
  }

  lemma FromU64FromI64(x: I64)
    ensures FromU64(FromI64(x)) == x
  {
  }

  lemma FromI64FromU64(x: U64)
    ensures FromI64(FromU64(x)) == x
  {
  }

  lemma FromU32FromI32(x: I32)
    ensures FromU32(FromI32(x)) == x
  {
  }

  lemma FromI32FromU32(x: U32)
    ensures FromI32(FromU32(x)) == x
  {
  }

  /** The reinterpretation keeps the little-endian image: the bytes are reused unchanged. */
  lemma ReinterpretationKeepsBytes(x: I64, y: U64, z: I32, w: U32)
    ensures U64ToLeBytes(FromI64(x)) == I64ToLeBytes(x)
    ensures I64ToLeBytes(FromU64(y)) == U64ToLeBytes(y)
    ensures U32ToLeBytes(FromI32(z)) == I32ToLeBytes(z)
    ensures I32ToLeBytes(FromU32(w)) == U32ToLeBytes(w)
  {
  }
}
